=== FILE: README.md ===
# HTTP request echo server — a Dafny model

The service answers every HTTP request other than OPTIONS by sending it back, as long
as the body parses and the request path percent-decodes. A request body is
returned byte for byte under the content type the caller declared. When there
is no body, the percent-decoded request path is returned as plain text. Every
response disables caching. A request whose `Accept` header is exactly
`application/vnd.favicon.url` instead asks for the favicon URL of the site its
path names. The service tries `<base>/favicon.ico`. When that answers 400 or
above, it fetches the page and takes the `href` the pattern at index.js:86 captures.
That comes from the first `<link rel="…icon"` followed, on the same line, by an
`href="X"` with non-empty X. Because the `.*` is greedy, it is the last such href
on that line, which may belong to a later tag. An `href=""` is skipped, and a tag
with no such href on its line is passed over for a later one.

This project models that behaviour as pure functions, and proves properties of them.

- `Wrappers`: an `Option` type.
- `Percent`: `decodeURIComponent` as ECMA-262 defines it (the abstract operation
  Decode in section 19.2.6, with an empty preserve set). It decodes `%XY`
  escapes as UTF-8 octets; a malformed escape, or octets that are not
  well-formed UTF-8, give `None` where JavaScript throws a URIError.
  `encodeURIComponent` is modelled as its inverse, and the round trip is proved.
- `Middleware`: `noParsing`, which moves `content-type` into `x-content-type` and
  forces the binary type, and `noCache`, which sets the three no-cache response headers.
- `LinkPattern`: `/<link rel="[^"]*icon".*href="([^"]+)"/.exec(html)`, written as a
  matcher for this one pattern. It is proved against a declarative description of a
  match. The matcher finds the leftmost match, and at that start the one with the
  longest `.*`, as JavaScript's backtracking does. It returns `None` exactly when
  nothing matches.
- `Favicon`: the base URL taken from the path, and `getFavicon`'s decisions. The
  two network requests are given as abstract outcomes: a status or an error code for
  the `.ico` request, and page text or an error code for the page request.
- `Server`: the route decision, the echo handler, the error handler, and the
  whole pipeline `Serve` for one request. The route decision includes a step of
  Express 4's router: it matches the catch-all route `*` at index.js:24 by
  percent-decoding the whole path. When that fails, the route is skipped and Express's
  final handler answers 400 before the handler or the favicon flow runs.

Three behaviours of the code worth noting:

- A page with no matching icon link does not give 404. `exec` returns `null`, and
  reading `.length` on it throws a TypeError. The catch in `getFavicon` swallows it
  because the error has no `ENOTFOUND` code. The reply is then 200 with the default
  `<base>/favicon.ico`.
- A caller's own `x-content-type` header is not propagated: `noParsing` always
  overwrites it. Only `content-type` decides the echoed type
  (`Server.CallerSideChannelExample`).
- Errors in the favicon flow other than `ENOTFOUND` are not left unhandled.
  `getFavicon` catches every error and sends the current icon URL.

## Model

| member | source | states |
|---|---|---|
| `Percent.Decode` | index.js:33 | Decoding never makes a string longer: an escape of three or more characters yields one character. |
| `Percent.DecodeWithoutEscapes` | index.js:33 | A string without `%` decodes to itself. |
| `Percent.DecodeEncodeRoundTrip` | index.js:33 | For every string s, decoding `encodeURIComponent(s)` gives back s, including characters outside ASCII encoded as 2, 3 or 4 UTF-8 octets. |
| `Percent.DecodePlainPrefix` | index.js:33 | Text without `%` passes through decoding unchanged, whatever follows it, and does not change whether decoding fails. |
| `Percent.DecodeSpaceExample` | index.js:33 | `hello%20world` decodes to `hello world`. |
| `Percent.DecodeUtf8Example` | index.js:33 | `%C3%A9` decodes to the single character U+00E9. |
| `Percent.DecodeFailsAtBadEscape` | index.js:33 | An escape that does not decode makes the whole decoding fail, whatever text without `%` precedes it. |
| `Percent.DecodeFailsWithoutHexDigits` | index.js:33 | A `%` not followed by two hex digits makes the whole decoding fail, whatever text without `%` precedes it. |
| `Percent.DecodeErrorExamples` | index.js:33 | A bare `%`, a `%` not followed by two hex digits, and a UTF-8 lead octet without its continuation octets all fail to decode. |
| `Middleware.Declared` | index.js:48-49 | `content-type ?? "application/octet-stream"`: the caller's value when the header is present, even when it is empty, and the binary default only when it is absent. |
| `Middleware.NoParsing` | index.js:47-52 | `x-content-type` becomes the caller's `content-type`, or `application/octet-stream` when there is none. `content-type` becomes `application/octet-stream`. Every other header keeps its value, and no header is removed. |
| `Middleware.NoParsingIgnoresCallerSideChannel` | index.js:48-49 | Whatever `x-content-type` the caller sends, the headers after `noParsing` are the same. |
| `Middleware.NoCache` | index.js:54-59 | The response gains exactly `Cache-Control: private, no-cache, no-store, must-revalidate`, `Expires: -1` and `Pragma: no-cache`, and every other header is left as it was. |
| `LinkPattern.Exec` | index.js:86 | The match reported satisfies the pattern. No match starts earlier. No match at the same start has a later `href="`. The result is None exactly when no match exists. |
| `LinkPattern.LastHref` | index.js:86 | The `href="` the greedy `.*` settles on lies in the searched stretch of the line, has a non-empty, quote-free value, and no later position in the stretch starts one. None means no position in the stretch does. |
| `LinkPattern.FindFrom` | index.js:86 | The search from a start position reports the match at the first position where the matcher finds one, and reports none exactly when no position from there on has one. |
| `LinkPattern.ExecHref` | index.js:86-88 | A capture exists exactly when the pattern matches somewhere. It is the text between `href="` and the closing quote of a match that starts no later than any other, and whose `href="` is the latest among the matches at that start. It is non-empty and has no `"`. |
| `LinkPattern.ExecHrefExample` | index.js:86-88 | In `<link rel="icon" href="/f.png">` the captured href is `/f.png`. |
| `Favicon.DropLeadingSlash` | index.js:80 | `replace(/^\//gi, "")` removes one `/` at index 0 if there is one, and otherwise changes nothing. |
| `Favicon.DropTrailingSlash` | index.js:80 | `replace(/\/$/gi, "")` removes one `/` at the end if there is one, and otherwise changes nothing. |
| `Favicon.BaseUrl` | index.js:80 | The base URL is a contiguous stretch of the path. It starts after the leading `/` if there is one. It is at most 2 characters shorter. It loses one more character exactly when the path ends in `/` after that leading `/`, and that character is the final `/`. |
| `Favicon.BaseUrlOfPath` | index.js:80 | `"/" + b` gives back b when b does not end in `/`. `"/" + b + "/"` always gives back b. |
| `Favicon.Caught` | index.js:92-97 | The catch gives 404 exactly for the `ENOTFOUND` code. Any other error sends the icon URL as it stands. |
| `Favicon.Resolve` | index.js:79-98 | The `.ico` URL is requested first. The base URL is requested second, and only when the `.ico` status is at least 400. The reply is 404 exactly when a request failed with `ENOTFOUND`. A scraped href gives `base + href`. Every other reply is `base + "/favicon.ico"`. |
| `Server.ErrorHandler` | index.js:66-73 | Every error becomes status 400, whether or not it is an Error instance, and the response keeps the headers already set. |
| `Server.Substring1` | index.js:33 | `substring(1)` drops the first character, and leaves an empty string empty. |
| `Server.Echo` | index.js:29-39 | A body is sent back unchanged with status 200 under the `x-content-type` value. With no body, the status is 400 exactly when the path after its first character fails to decode. Otherwise the decoded text is sent as `text/plain`. |
| `Server.FaviconResponse` | index.js:93-97 | The status is 404 exactly for the not-found reply. Any URL reply is sent with status 200 and the URL as its body. |
| `Server.RouterError` | index.js:24 | A path the router cannot decode gets status 400 and Express's error page, on the headers already set. |
| `Server.RouteOf` | index.js:22-26 | The error middleware takes exactly the requests whose body failed to parse. The router's error takes exactly the parsed requests whose whole path does not percent-decode. |
| `Server.RouteToFaviconIff` | index.js:24-28 | The favicon flow runs exactly when the body parsed, the path decodes and `Accept` equals `application/vnd.favicon.url`. The echo flow runs exactly when the first two hold and `Accept` is anything else. |
| `Server.Serve` | index.js:11-41 | Every response has status 200, 400 or 404 and carries exactly the three no-cache headers. It is Express's error page exactly when the router could not decode the path of a parsed request. |
| `Server.UndecodablePathIsBadRequest` | index.js:24 | A path that does not percent-decode gets 400 whatever the body, the `Accept` header and the network say. For a parsed body the answer is Express's error page. |
| `Server.PathDecodesIffTailDecodes` | index.js:24-33 | For a path whose first character is not `%`, such as the leading `/`, the whole path decodes exactly when the part after the first character does. So the router's check and the handler's agree. |
| `Server.CacheHeadersOnEveryResponse` | index.js:13 | Of the headers the service's own middleware sets, every response carries exactly the three no-cache headers, whatever the route and outcome. |
| `Server.EchoBody` | index.js:29-37 | For a path that decodes, a body is echoed byte for byte with status 200. The handler sets the type to the caller's `content-type`, or to `application/octet-stream` when none was sent. |
| `Server.EchoPath` | index.js:31-39 | With no body, the status is 200 exactly when the whole path and the part after its first character both decode. Then that decoded part is sent as `text/plain`, whatever type was declared. Every other case gives 400. |
| `Server.ParseFailureIsBadRequest` | index.js:22 | A body the parser rejects gives 400 before any route runs. |
| `Server.EchoIgnoresNetwork` | index.js:24-41 | Outside the favicon flow, the response does not depend on any network outcome. |
| `Server.FaviconStatus` | index.js:26-27 | A favicon request whose path decodes gets 404 exactly when a request failed with `ENOTFOUND`. Otherwise it gets 200 with a URL that begins with the base URL. |
| `Server.HelloWorldExample` | index.js:31-37 | `GET /hello%20world` with no body answers 200, `text/plain`, `hello world`. |
| `Server.JsonEchoExample` | index.js:29-37 | A body sent with `content-type: application/json` comes back under `application/json` with status 200. |
| `Server.CallerSideChannelExample` | index.js:47-50 | A body sent with only `x-content-type: application/json` comes back as `application/octet-stream`. |
| `Server.FaviconFoundExample` | index.js:79-97 | For any host that decodes and does not end in `/`, a favicon request for `/<host>` whose `.ico` answers 200 gets status 200 and the body `<host>/favicon.ico`. |
| `Server.FaviconUnresolvableExample` | index.js:83-94 | A favicon request whose `.ico` request fails with `ENOTFOUND` gets 404, whatever the page, for any path that decodes. |

## Left out

- The text of the HTML page Express's final handler writes for an undecodable path, and the security headers it adds. The page depends on the environment (it shows the stack trace outside production) and is modelled as the one value `ErrorPage`.
- Express, cors and body-parser wiring, and `app.listen`. Reading `PORT` and `LIMIT` from the environment is left out too. This is framework plumbing and configuration.
- Headers the frameworks add themselves, such as `Access-Control-Allow-Origin` from `cors()`, `X-Powered-By: Express`, `Content-Length` and `ETag`. `Response.headers` holds only the headers the service's own middleware sets. They come from foreign libraries.
- Requests with method OPTIONS. `cors()` at index.js:14 runs before every route and, with its default options, ends every OPTIONS request itself with status 204 and an empty body. `Request` carries no method, and `Serve` describes the other methods only.
- The body of a HEAD response. `app.all` at index.js:24 takes HEAD requests, and Express sends the status and headers a GET would get but no body. `Serve` gives the body that GET would get.
- The 304 that Express's `res.send` returns for a conditional GET whose `If-None-Match` matches the ETag it computes. Request validators and ETags are not modelled, so `Serve` gives the response as if no validator matched.
- How `express.raw` enforces the size limit and inflates bodies. Its result is an input: no body, the bytes read, or a parse failure.
- The two HTTP requests of the favicon flow. Their outcomes are inputs, and the model records which URLs would be requested.
- Express's choice of content type when the handler sets none or an empty one. A caller who sends an empty `content-type` has `""` set by the handler, and `res.send` replaces it with `application/octet-stream` for a body. Also left out is the `; charset=utf-8` it appends to text types and to the JSON and JavaScript types such as `application/json`. The response records only the type the handler itself set.
- The text `res.sendStatus` writes is modelled only as the reason phrase for 400 and 404.
- Logging to the console and the `unhandledRejection` hook. They are side effects only.
- Header values that are arrays, and repeated `Accept` headers, which Node joins. Headers are modelled as a map from lower-case names to single strings.
- JavaScript strings are UTF-16 code units, but Dafny characters are Unicode scalar values. A path holding a lone surrogate cannot be written, and a decoded astral character is one character rather than a surrogate pair.
- Regular-expression semantics in general. Only the one pattern at index.js:86 is modelled, and `replace` only for the two anchored patterns at index.js:80.

=== FILE: favicon.dfy ===
/** The favicon resolver, `getFavicon` (index.js:79-98), with its two network
    requests replaced by their outcomes, given as inputs. */
module Favicon {
  import opened Wrappers
  import LinkPattern

  const IconFile := "/favicon.ico"
  /** The error code node-fetch reports when the host name does not resolve. */
  const HostNotFound := "ENOTFOUND"

  predicate StartsWithSlash(s: string) {
    |s| > 0 && s[0] == '/'
  }

  predicate EndsWithSlash(s: string) {
    |s| > 0 && s[|s| - 1] == '/'
  }

  /** `s.replace(/^\//gi, "")`: the anchor lets the pattern match only at index 0,
      so at most the one slash there goes. */
  function DropLeadingSlash(s: string): (r: string)
    ensures StartsWithSlash(s) ==> ['/'] + r == s
    ensures !StartsWithSlash(s) ==> r == s
  {
    if StartsWithSlash(s) then s[1..] else s
  }

  /** `s.replace(/\/$/gi, "")`: without the `m` flag `$` matches only at the very end,
      so at most the one slash there goes. */
  function DropTrailingSlash(s: string): (r: string)
    ensures EndsWithSlash(s) ==> r + ['/'] == s
    ensures !EndsWithSlash(s) ==> r == s
  {
    if EndsWithSlash(s) then s[..|s| - 1] else s
  }

  /** The base URL a request path names: one leading and then one trailing slash
      removed. It is the stretch of the path that starts after the leading slash, if
      any, and loses at most a final slash. */
  function BaseUrl(path: string): (r: string)
    ensures |path| - 2 <= |r| <= |path|
    ensures var from := if StartsWithSlash(path) then 1 else 0;
      && from + |r| <= |path|
      && path[from..from + |r|] == r
      && (from + |r| < |path| ==> from + |r| == |path| - 1)
      && (from + |r| < |path| <==> from < |path| && path[|path| - 1] == '/')
  {
    DropTrailingSlash(DropLeadingSlash(path))
  }

  /** A path spelled as a slash and a base URL that does not end in a slash gives that
      base URL back, and so does the same path with one slash appended. */
  lemma BaseUrlOfPath(base: string)
    ensures !EndsWithSlash(base) ==> BaseUrl("/" + base) == base
    ensures BaseUrl("/" + base + "/") == base
  {
    assert ("/" + base)[1..] == base;
    assert ("/" + base + "/")[1..] == base + "/";
    assert (base + "/")[..|base|] == base;
  }

  /** What the request for `<base>/favicon.ico` produced: a response status, or a
      thrown error with its `code` property when it has one. */
  datatype IcoFetch = IcoStatus(status: int) | IcoFailed(code: Option<string>)

  /** What the request for the base URL itself produced: the page text, or a thrown
      error (from the request or from reading the text). */
  datatype PageFetch = PageText(text: string) | PageFailed(code: Option<string>)

  /** `res.sendStatus(404)`, or `res.send(url)` with status 200. */
  datatype Reply = NotFound | IconUrl(url: string)

  /** The URLs requested, in order, and the reply sent. */
  datatype Resolution = Resolution(requested: seq<string>, reply: Reply)

  /** The catch block: a host that does not resolve gives 404; anything else is
      swallowed and the icon URL as it stands is sent. */
  function Caught(code: Option<string>, iconUrl: string): (r: Reply)
    ensures r == NotFound <==> code == Some(HostNotFound)
    ensures r != NotFound ==> r == IconUrl(iconUrl)
  {
    if code == Some(HostNotFound) then NotFound else IconUrl(iconUrl)
  }

  /** The link the resolver scrapes from the page, when it asked for one and found one. */
  function Scraped(ico: IcoFetch, page: PageFetch): Option<string> {
    if ico.IcoStatus? && ico.status >= 400 && page.PageText? then LinkPattern.ExecHref(page.text)
    else None
  }

  /** `getFavicon`: ask for `<base>/favicon.ico`; below status 400 that is the answer.
      Otherwise fetch the base URL and take the href the pattern captures, appended to
      the base URL as plain text. The capture comes from the first `<link rel="…icon"`
      followed on its line by an `href="X"` with non-empty X; of those hrefs, the last,
      which may belong to a later tag. When no link matches, `exec`
      yields null and reading its length throws a TypeError, which has no code, so the
      catch sends the default icon URL. */
  function Resolve(path: string, ico: IcoFetch, page: PageFetch): (r: Resolution)
    ensures |r.requested| in {1, 2}
    ensures r.requested[0] == BaseUrl(path) + IconFile
    ensures |r.requested| == 2 <==> ico.IcoStatus? && ico.status >= 400
    ensures |r.requested| == 2 ==> r.requested[1] == BaseUrl(path)
    ensures r.reply == NotFound <==>
      (|| ico == IcoFailed(Some(HostNotFound))
       || (ico.IcoStatus? && ico.status >= 400 && page == PageFailed(Some(HostNotFound))))
    ensures Scraped(ico, page).Some? ==>
      r.reply == IconUrl(BaseUrl(path) + Scraped(ico, page).value)
    ensures Scraped(ico, page).None? && r.reply != NotFound ==>
      r.reply == IconUrl(BaseUrl(path) + IconFile)
  {
    var base := BaseUrl(path);
    var iconUrl := base + IconFile;
    match ico
    case IcoFailed(code) => Resolution([iconUrl], Caught(code, iconUrl))
    case IcoStatus(status) =>
      if status < 400 then Resolution([iconUrl], IconUrl(iconUrl))
      else
        match page
        case PageFailed(code) => Resolution([iconUrl, base], Caught(code, iconUrl))
        case PageText(html) =>
          match LinkPattern.ExecHref(html)
          case Some(href) => Resolution([iconUrl, base], IconUrl(base + href))
          case None => Resolution([iconUrl, base], Caught(None, iconUrl))
  }
}

=== FILE: link_pattern.dfy ===
/** The search the favicon resolver runs over a page's HTML (index.js:86):
    `/<link rel="[^"]*icon".*href="([^"]+)"/.exec(html)`, with JavaScript's
    backtracking semantics written out for this one pattern.

    The engine tries start positions from left to right and reports the first that
    matches. At a start, `[^"]*icon"` can only end at the first quote after
    `<link rel="`; the greedy `.*` (which stops at line terminators) then tries the
    longest stretch first, so the `href="…"` it settles on is the LAST one that
    begins on the same line; `[^"]+` then runs to the next quote. */
module LinkPattern {
  import opened Wrappers

  const Open := "<link rel=\""
  const IconEnd := "icon"
  const HrefOpen := "href=\""

  /** The characters `.` does not match in a pattern without the `s` flag. */
  predicate IsLineTerminator(c: char) {
    c == '\n' || c == '\r' || c == '\U{2028}' || c == '\U{2029}'
  }

  /** Positions of one match: where it starts, the quote closing the `rel` value,
      where `href="` starts, and the quote closing the captured href. */
  datatype Match = Match(start: nat, relQuote: nat, href: nat, close: nat)

  /** The pattern matches html at the given positions. */
  ghost predicate IsMatch(html: string, start: int, relQuote: int, href: int, close: int) {
    && 0 <= start && start + |Open| + |IconEnd| <= relQuote < href
    && href + |HrefOpen| < close < |html|
    && html[start..start + |Open|] == Open
    && (forall i | start + |Open| <= i < relQuote :: html[i] != '"')
    && html[relQuote - |IconEnd|..relQuote] == IconEnd
    && html[relQuote] == '"'
    && (forall i | relQuote < i < href :: !IsLineTerminator(html[i]))
    && html[href..href + |HrefOpen|] == HrefOpen
    && (forall i | href + |HrefOpen| <= i < close :: html[i] != '"')
    && html[close] == '"'
  }

  /** The first double quote at or after `from`. */
  function NextQuote(s: string, from: nat): (r: Option<nat>)
    requires from <= |s|
    ensures r.Some? ==> from <= r.value < |s| && s[r.value] == '"'
    ensures r.Some? ==> forall i | from <= i < r.value :: s[i] != '"'
    ensures r.None? ==> forall i | from <= i < |s| :: s[i] != '"'
    decreases |s| - from
  {
    if from == |s| then None
    else if s[from] == '"' then Some(from)
    else NextQuote(s, from + 1)
  }

  /** A quote with none before it from `from` on is the one NextQuote finds. */
  lemma NextQuoteIs(s: string, from: nat, q: nat)
    requires from <= q < |s| && s[q] == '"'
    requires forall i | from <= i < q :: s[i] != '"'
    ensures NextQuote(s, from) == Some(q)
  {
    var r := NextQuote(s, from);
    assert r.Some?;
    assert s[r.value] == '"';
  }

  /** The first line terminator at or after `from`, or |s| when the line runs to the end. */
  function LineEnd(s: string, from: nat): (r: nat)
    requires from <= |s|
    ensures from <= r <= |s|
    ensures forall i | from <= i < r :: !IsLineTerminator(s[i])
    ensures r < |s| ==> IsLineTerminator(s[r])
    decreases |s| - from
  {
    if from == |s| || IsLineTerminator(s[from]) then from
    else LineEnd(s, from + 1)
  }

  /** When `href="X"` with a non-empty, quote-free X starts at j: the index of the
      quote that closes X. */
  function HrefAt(s: string, j: nat): (r: Option<nat>)
    ensures r.Some? ==> j + |HrefOpen| < r.value < |s| && s[j..j + |HrefOpen|] == HrefOpen
    ensures r.Some? ==> s[r.value] == '"' && forall i | j + |HrefOpen| <= i < r.value :: s[i] != '"'
  {
    if j + |HrefOpen| <= |s| && s[j..j + |HrefOpen|] == HrefOpen then
      match NextQuote(s, j + |HrefOpen|)
      case Some(k) => if k > j + |HrefOpen| then Some(k) else None
      case None => None
    else None
  }

  /** Every `href="X"` the pattern's tail accepts at j is the one HrefAt reports. */
  lemma HrefAtComplete(s: string, j: nat, k: nat)
    requires j + |HrefOpen| < k < |s| && s[j..j + |HrefOpen|] == HrefOpen
    requires s[k] == '"' && forall i | j + |HrefOpen| <= i < k :: s[i] != '"'
    ensures HrefAt(s, j) == Some(k)
  {
    NextQuoteIs(s, j + |HrefOpen|, k);
  }

  /** No href starts at any j in [lo, hi). Stated recursively, from the top end,
      so that the solver unfolds it one position at a time. */
  predicate NoHrefIn(s: string, lo: nat, hi: nat)
    decreases hi - lo
  {
    hi <= lo || (HrefAt(s, hi - 1).None? && NoHrefIn(s, lo, hi - 1))
  }

  lemma {:induction false} NoHrefInAt(s: string, lo: nat, hi: nat, j: nat)
    requires NoHrefIn(s, lo, hi) && lo <= j < hi
    ensures HrefAt(s, j).None?
    decreases hi - j
  {
    if j < hi - 1 {
      NoHrefInAt(s, lo, hi - 1, j);
    }
  }

  /** The last j in [lo, hi) at which an href starts, and the quote closing it. */
  function LastHref(s: string, lo: nat, hi: nat): (r: Option<(nat, nat)>)
    requires lo <= hi
    ensures r.Some? ==> lo <= r.value.0 < hi && HrefAt(s, r.value.0) == Some(r.value.1)
    ensures r.Some? ==> NoHrefIn(s, r.value.0 + 1, hi)
    ensures r.None? ==> NoHrefIn(s, lo, hi)
    decreases hi - lo
  {
    if hi == lo then None
    else match HrefAt(s, hi - 1)
      case Some(k) => Some((hi - 1, k))
      case None => LastHref(s, lo, hi - 1)
  }

  /** LastHref finds an href whenever one starts in [lo, hi), and none later than it. */
  lemma LastHrefComplete(s: string, lo: nat, hi: nat, j: nat)
    requires lo <= j < hi && HrefAt(s, j).Some?
    ensures LastHref(s, lo, hi).Some? && j <= LastHref(s, lo, hi).value.0
  {
    var last := LastHref(s, lo, hi);
    if last.None? {
      NoHrefInAt(s, lo, hi, j);
    } else if last.value.0 < j {
      NoHrefInAt(s, last.value.0 + 1, hi, j);
    }
  }

  /** When `<link rel="[^"]*icon"` matches at p: the index of its closing quote,
      which can only be the first quote after `<link rel="`. */
  function RelQuote(s: string, p: nat): (r: Option<nat>)
    ensures r.Some? ==> p + |Open| + |IconEnd| <= r.value < |s| && s[p..p + |Open|] == Open
    ensures r.Some? ==> s[r.value - |IconEnd|..r.value] == IconEnd && s[r.value] == '"'
    ensures r.Some? ==> forall i | p + |Open| <= i < r.value :: s[i] != '"'
  {
    if p + |Open| <= |s| && s[p..p + |Open|] == Open then
      match NextQuote(s, p + |Open|)
      case None => None
      case Some(q) =>
        if q >= p + |Open| + |IconEnd| && s[q - |IconEnd|..q] == IconEnd then Some(q) else None
    else None
  }

  /** Every way the head of the pattern matches at p ends at the quote RelQuote reports. */
  lemma RelQuoteComplete(s: string, p: nat, q: nat)
    requires p + |Open| + |IconEnd| <= q < |s| && s[p..p + |Open|] == Open
    requires s[q - |IconEnd|..q] == IconEnd && s[q] == '"'
    requires forall i | p + |Open| <= i < q :: s[i] != '"'
    ensures RelQuote(s, p) == Some(q)
  {
    NextQuoteIs(s, p + |Open|, q);
  }

  /** A position reached from `from` without crossing a line terminator lies before
      the end of the line. */
  lemma LineEndBeyond(s: string, from: nat, j: nat)
    requires from <= j < |s|
    requires forall i | from <= i <= j :: !IsLineTerminator(s[i])
    ensures j < LineEnd(s, from)
  {
  }

  /** The match the engine settles on when it tries start position p. */
  function MatchAt(s: string, p: nat): (r: Option<Match>)
    ensures r.Some? ==> r.value.start == p
  {
    match RelQuote(s, p)
    case None => None
    case Some(q) =>
      match LastHref(s, q + 1, LineEnd(s, q + 1))
      case Some((j, k)) => Some(Match(p, q, j, k))
      case None => None
  }

  /** What MatchAt reports is a match, and the one with the longest `.*`. */
  lemma MatchAtSound(s: string, p: nat)
    requires MatchAt(s, p).Some?
    ensures var m := MatchAt(s, p).value;
      m.start == p && IsMatch(s, m.start, m.relQuote, m.href, m.close)
  {
    var m := MatchAt(s, p).value;
    var e := LineEnd(s, m.relQuote + 1);
    assert m.href < e;
  }

  /** With the head of the pattern ending at q and an href at j on the same line,
      MatchAt finds a match whose href is no earlier than j. */
  lemma MatchAtFrom(s: string, p: nat, q: nat, j: nat)
    requires RelQuote(s, p) == Some(q) && q + 1 <= j < LineEnd(s, q + 1)
    requires HrefAt(s, j).Some?
    ensures MatchAt(s, p).Some?
    ensures MatchAt(s, p).value.relQuote == q && j <= MatchAt(s, p).value.href
  {
    var e := LineEnd(s, q + 1);
    var last := LastHref(s, q + 1, e);
    LastHrefComplete(s, q + 1, e, j);
    assert MatchAt(s, p) == Some(Match(p, q, last.value.0, last.value.1));
  }

  /** Any match starting at p is found by MatchAt, with an href no later than its own. */
  lemma MatchAtComplete(s: string, p: nat, q: nat, j: nat, k: nat)
    requires IsMatch(s, p, q, j, k)
    ensures MatchAt(s, p).Some?
    ensures MatchAt(s, p).value.relQuote == q && j <= MatchAt(s, p).value.href
  {
    RelQuoteComplete(s, p, q);
    assert s[j] == HrefOpen[0];
    LineEndBeyond(s, q + 1, j);
    HrefAtComplete(s, j, k);
    MatchAtFrom(s, p, q, j);
  }

  /** No start position in [a, b) yields a match. Stated recursively so that the
      solver unfolds it one position at a time. */
  predicate NoMatchIn(s: string, a: nat, b: nat)
    decreases b - a
  {
    a >= b || (MatchAt(s, a).None? && NoMatchIn(s, a + 1, b))
  }

  lemma {:induction false} NoMatchInAt(s: string, a: nat, b: nat, x: nat)
    requires NoMatchIn(s, a, b) && a <= x < b
    ensures MatchAt(s, x).None?
    decreases x - a
  {
    if a < x {
      NoMatchInAt(s, a + 1, b, x);
    }
  }

  /** The first match at or after start position p, as the engine reports it:
      the one at the first start position where MatchAt finds one. */
  function FindFrom(s: string, p: nat): (r: Option<Match>)
    requires p <= |s|
    ensures r.Some? ==> p <= r.value.start && MatchAt(s, r.value.start) == r
    ensures r.Some? ==> NoMatchIn(s, p, r.value.start)
    ensures r.None? ==> NoMatchIn(s, p, |s|)
    decreases |s| - p
  {
    if p == |s| then None
    else match MatchAt(s, p)
      case Some(m) => Some(m)
      case None => FindFrom(s, p + 1)
  }

  /** The search from the first position finds a match exactly when there is one,
      and it is the leftmost, with the longest `.*` at its start. */
  lemma FindFromStartCharacterized(html: string)
    ensures var r := FindFrom(html, 0);
      && (r.Some? ==> IsMatch(html, r.value.start, r.value.relQuote, r.value.href, r.value.close))
      && (forall st, q, j, k | IsMatch(html, st, q, j, k)
            :: r.Some? && (r.value.start < st || (r.value.start == st && j <= r.value.href)))
  {
    var r := FindFrom(html, 0);
    if r.Some? {
      MatchAtSound(html, r.value.start);
    }
    forall st, q, j, k | IsMatch(html, st, q, j, k)
      ensures r.Some? && (r.value.start < st || (r.value.start == st && j <= r.value.href))
    {
      MatchAtComplete(html, st, q, j, k);
      if r.None? {
        NoMatchInAt(html, 0, |html|, st);
      } else if st < r.value.start {
        NoMatchInAt(html, 0, r.value.start, st);
      }
    }
  }

  /** `exec`: the leftmost match, and at that start the one whose `.*` is longest;
      None exactly when the pattern matches nowhere. */
  function Exec(html: string): (r: Option<Match>)
    ensures r.Some? ==> IsMatch(html, r.value.start, r.value.relQuote, r.value.href, r.value.close)
    ensures r.Some? ==> forall st, q, j, k | IsMatch(html, st, q, j, k)
              :: r.value.start < st || (r.value.start == st && j <= r.value.href)
    ensures r.None? ==> forall st, q, j, k :: !IsMatch(html, st, q, j, k)
  {
    FindFromStartCharacterized(html);
    FindFrom(html, 0)
  }

  /** `exec(html)[1]`, the captured href, when the pattern matches. */
  function ExecHref(html: string): (r: Option<string>)
    ensures r.Some? <==> exists st, q, j, k :: IsMatch(html, st, q, j, k)
    ensures r.Some? ==> |r.value| > 0 && '"' !in r.value
    ensures r.Some? ==>
      exists st, q, j, k ::
        && IsMatch(html, st, q, j, k)
        && r.value == html[j + |HrefOpen|..k]
        && (forall st', q', j', k' | IsMatch(html, st', q', j', k')
              :: st < st' || (st == st' && j' <= j))
  {
    match Exec(html)
    case Some(m) =>
      assert IsMatch(html, m.start, m.relQuote, m.href, m.close);
      Some(html[m.href + |HrefOpen|..m.close])
    case None => None
  }

  // ---------------------------------------------------------------------------
  // Example

  const ExampleLink := "<link rel=\"icon\" href=\"/f.png\">"

  /** In the example, `href="` starts only at index 17. */
  lemma ExampleHrefPosition(j: int)
    requires 17 <= j < 24 && ExampleLink[j..j + |HrefOpen|] == HrefOpen
    ensures j == 17
  {
    assert ExampleLink[j] == 'h';
  }

  /** In the example, the first quote after the href value's start is at index 29. */
  lemma ExampleClosePosition(k: int)
    requires 23 < k < |ExampleLink| && ExampleLink[k] == '"'
    requires forall i | 23 <= i < k :: ExampleLink[i] != '"'
    ensures k == 29
  {
    assert ExampleLink[29] == '"';
  }

  lemma ExampleCapture()
    ensures ExampleLink[23..29] == "/f.png"
  {
  }

  /** The href of a plain icon link is captured whole. */
  lemma ExecHrefExample()
    ensures ExecHref(ExampleLink) == Some("/f.png")
  {
    var html := ExampleLink;
    assert |html| == 31;
    assert html[0..11] == Open;
    assert html[11..15] == IconEnd;
    assert html[17..23] == HrefOpen;
    assert IsMatch(html, 0, 15, 17, 29);
    var m := Exec(html).value;
    assert m.start == 0 && 17 <= m.href < 24;
    ExampleHrefPosition(m.href);
    ExampleClosePosition(m.close);
    assert ExecHref(html) == Some(html[23..29]);
    ExampleCapture();
  }
}

=== FILE: middleware.dfy ===
/** The two middleware steps every request passes through before routing
    (index.js:12-13): `noParsing` rewrites the request headers, `noCache` sets the
    response headers that disable caching. */
module Middleware {
  import opened Wrappers

  /** Header names to values. Node stores request header names in lower case, and
      `req.get(name)` looks up the lower-cased name, so lookups here are exact. */
  type Headers = map<string, string>

  const ContentType := "content-type"
  /** The side channel that carries the caller's declared content type past the body parser. */
  const SideChannel := "x-content-type"
  const OctetStream := "application/octet-stream"

  const CacheControl := "Cache-Control"
  const Expires := "Expires"
  const Pragma := "Pragma"
  const NoStore := "private, no-cache, no-store, must-revalidate"

  /** `req.get(name)` for a lower-case name: None where JavaScript yields undefined. */
  function Get(h: Headers, name: string): (r: Option<string>)
    ensures r.Some? <==> name in h
    ensures r.Some? ==> r.value == h[name]
  {
    if name in h then Some(h[name]) else None
  }

  /** `req.get("content-type") ?? "application/octet-stream"`: the content type the
      caller declared, or the binary default when it declared none. */
  function Declared(h: Headers): (r: string)
    ensures Get(h, ContentType).Some? ==> r == h[ContentType]
    ensures Get(h, ContentType).None? ==> r == OctetStream
  {
    match Get(h, ContentType)
    case Some(t) => t
    case None => OctetStream
  }

  /** `noParsing`: the declared content type (or the binary default when there is
      none) moves into the side channel, overwriting whatever the caller put there,
      and the content type becomes opaque binary so the raw parser takes every body. */
  function NoParsing(h: Headers): (r: Headers)
    ensures r.Keys == h.Keys + {ContentType, SideChannel}
    ensures r[SideChannel] == if ContentType in h then h[ContentType] else OctetStream
    ensures r[ContentType] == OctetStream
    ensures forall name | name in h && name != ContentType && name != SideChannel
              :: r[name] == h[name]
  {
    h[SideChannel := Declared(h)][ContentType := OctetStream]
  }

  /** The side-channel value the caller sends has no effect: noParsing overwrites it. */
  lemma NoParsingIgnoresCallerSideChannel(h: Headers, v: string)
    ensures NoParsing(h[SideChannel := v]) == NoParsing(h)
  {
    var a := NoParsing(h[SideChannel := v]);
    var b := NoParsing(h);
    assert a.Keys == b.Keys;
    forall name | name in a
      ensures a[name] == b[name]
    {
    }
  }

  /** `noCache`: the three response headers that forbid caching, set over whatever
      the response already carries. */
  function NoCache(res: Headers): (r: Headers)
    ensures r.Keys == res.Keys + {CacheControl, Expires, Pragma}
    ensures r[CacheControl] == NoStore && r[Expires] == "-1" && r[Pragma] == "no-cache"
    ensures forall name | name in res && name != CacheControl && name != Expires && name != Pragma
              :: r[name] == res[name]
  {
    res[CacheControl := NoStore][Expires := "-1"][Pragma := "no-cache"]
  }
}

=== FILE: percent.dfy ===
/** Percent-decoding of a URI component, the JavaScript built-in `decodeURIComponent`
    that the echo handler applies to the request path when the body is empty.
    It follows the abstract operation Decode of ECMA-262 (section 19.2.6 of recent
    editions) with an empty preserve set: every `%XY` escape is read as an octet, runs of
    octets are read as UTF-8 (section 3.9 of the Unicode standard), and any malformed
    escape or octet sequence is a URIError, modelled here as `None`.
    `encodeURIComponent` is modelled alongside as the decoder's inverse. */
module Percent {
  import opened Wrappers

  const UpperHex := "0123456789ABCDEF"

  predicate IsHexDigit(c: char) {
    '0' <= c <= '9' || 'a' <= c <= 'f' || 'A' <= c <= 'F'
  }

  /** The value of a hexadecimal digit of either case. */
  function HexValue(c: char): (r: Option<nat>)
    ensures r.Some? <==> IsHexDigit(c)
    ensures r.Some? ==> r.value < 16
  {
    if '0' <= c <= '9' then Some(c as int - '0' as int)
    else if 'a' <= c <= 'f' then Some(c as int - 'a' as int + 10)
    else if 'A' <= c <= 'F' then Some(c as int - 'A' as int + 10)
    else None
  }

  /** The octet spelled by an escape `%XY` at index k of s, if one is there. */
  function OctetAt(s: string, k: nat): Option<byte> {
    if k + 3 <= |s| && s[k] == '%' then
      match (HexValue(s[k + 1]), HexValue(s[k + 2]))
      case (Some(hi), Some(lo)) => Some(hi * 16 + lo)
      case _ => None
    else None
  }

  /** The number of leading one bits of an octet: 0 for ASCII, 1 for a UTF-8
      continuation octet, 2 to 4 for the lead octet of a multi-octet sequence. */
  function LeadingOnes(b: byte): nat {
    if b < 0x80 then 0 else if b < 0xC0 then 1 else if b < 0xE0 then 2
    else if b < 0xF0 then 3 else if b < 0xF8 then 4 else if b < 0xFC then 5
    else if b < 0xFE then 6 else if b < 0xFF then 7 else 8
  }

  /** The n octets escaped at indices k, k + 3, ..., k + 3 * (n - 1) of s. */
  function Octets(s: string, k: nat, n: nat): (r: Option<seq<byte>>)
    ensures r.Some? ==> |r.value| == n && (n > 0 ==> k + 3 * n <= |s|)
    decreases n
  {
    if n == 0 then Some([])
    else
      var b :- OctetAt(s, k);
      var rest :- Octets(s, k + 3, n - 1);
      Some([b] + rest)
  }

  predicate IsContinuation(b: byte) {
    0x80 <= b < 0xC0
  }

  /** The character encoded by bs when bs is exactly one well-formed UTF-8 sequence:
      no overlong form, no surrogate code point, nothing above U+10FFFF. */
  function Utf8Decode(bs: seq<byte>): Option<char> {
    if |bs| == 1 then
      if bs[0] < 0x80 then Some(bs[0] as char) else None
    else if |bs| == 2 then
      if 0xC0 <= bs[0] < 0xE0 && IsContinuation(bs[1]) then
        var v: int := (bs[0] as int - 0xC0) * 64 + (bs[1] as int - 0x80);
        if 0x80 <= v then Some(v as char) else None
      else None
    else if |bs| == 3 then
      if 0xE0 <= bs[0] < 0xF0 && IsContinuation(bs[1]) && IsContinuation(bs[2]) then
        var v: int := (bs[0] as int - 0xE0) * 4096 + (bs[1] as int - 0x80) * 64 + (bs[2] as int - 0x80);
        if 0x800 <= v && !(0xD800 <= v < 0xE000) then Some(v as char) else None
      else None
    else if |bs| == 4 then
      if 0xF0 <= bs[0] < 0xF8 && IsContinuation(bs[1]) && IsContinuation(bs[2])
         && IsContinuation(bs[3])
      then
        var v: int := (bs[0] as int - 0xF0) * 262144 + (bs[1] as int - 0x80) * 4096
                      + (bs[2] as int - 0x80) * 64 + (bs[3] as int - 0x80);
        if 0x10000 <= v < 0x110000 then Some(v as char) else None
      else None
    else None
  }

  /** The character denoted by the escape sequence that starts s, and how many
      characters of s that sequence spans. */
  function DecodeEscape(s: string): (r: Option<(char, nat)>)
    requires |s| > 0 && s[0] == '%'
    ensures r.Some? ==> 3 <= r.value.1 <= |s|
  {
    var b :- OctetAt(s, 0);
    var n := LeadingOnes(b);
    if n == 0 then Some((b as char, 3))
    else if n == 1 || n > 4 then None
    else
      var bs :- Octets(s, 0, n);
      var c :- Utf8Decode(bs);
      Some((c, 3 * n))
  }

  /** `decodeURIComponent(s)`: None where JavaScript throws a URIError. */
  function Decode(s: string): (r: Option<string>)
    ensures r.Some? ==> |r.value| <= |s|
    decreases |s|
  {
    if |s| == 0 then Some([])
    else if s[0] != '%' then
      match Decode(s[1..])
      case None => None
      case Some(t) => Some([s[0]] + t)
    else
      match DecodeEscape(s)
      case None => None
      case Some((c, n)) =>
        match Decode(s[n..])
        case None => None
        case Some(t) => Some([c] + t)
  }

  // ---------------------------------------------------------------------------
  // encodeURIComponent, the inverse

  /** The characters encodeURIComponent leaves as they are. */
  predicate IsUnreserved(c: char) {
    'A' <= c <= 'Z' || 'a' <= c <= 'z' || '0' <= c <= '9' || c in "-_.!~*'()"
  }

  function Utf8Encode(c: char): (r: seq<byte>)
    ensures 1 <= |r| <= 4
  {
    var v := c as int;
    var sixth := v / 64;
    var twelfth := sixth / 64;
    if v < 0x80 then [v]
    else if v < 0x800 then [0xC0 + sixth, 0x80 + v % 64]
    else if v < 0x10000 then [0xE0 + twelfth, 0x80 + sixth % 64, 0x80 + v % 64]
    else [0xF0 + twelfth / 64, 0x80 + twelfth % 64, 0x80 + sixth % 64, 0x80 + v % 64]
  }

  function EncodeOctet(b: byte): string {
    ['%', UpperHex[b / 16], UpperHex[b % 16]]
  }

  function EncodeOctets(bs: seq<byte>): (r: string)
    ensures |r| == 3 * |bs|
  {
    if |bs| == 0 then [] else EncodeOctet(bs[0]) + EncodeOctets(bs[1..])
  }

  function EncodeChar(c: char): string {
    if IsUnreserved(c) then [c] else EncodeOctets(Utf8Encode(c))
  }

  /** `encodeURIComponent(s)`. */
  function Encode(s: string): string {
    if |s| == 0 then [] else EncodeChar(s[0]) + Encode(s[1..])
  }

  // ---------------------------------------------------------------------------
  // Round trip

  lemma HexDigitValue(d: nat)
    requires d < 16
    ensures HexValue(UpperHex[d]) == Some(d)
  {
  }

  lemma Utf8RoundTrip(c: char)
    ensures Utf8Decode(Utf8Encode(c)) == Some(c)
    ensures var bs := Utf8Encode(c);
      LeadingOnes(bs[0]) == if |bs| == 1 then 0 else |bs|
  {
    var v := c as int;
    var sixth := v / 64;
    var twelfth := sixth / 64;
    assert v == 64 * sixth + v % 64;
    assert sixth == 64 * twelfth + sixth % 64;
    assert twelfth == 64 * (twelfth / 64) + twelfth % 64;
  }

  lemma {:induction false} EncodeOctetsSlice(bs: seq<byte>, i: nat)
    requires i < |bs|
    ensures EncodeOctets(bs)[3 * i..3 * i + 3] == EncodeOctet(bs[i])
  {
    if i > 0 {
      EncodeOctetsSlice(bs[1..], i - 1);
      assert EncodeOctets(bs) == EncodeOctet(bs[0]) + EncodeOctets(bs[1..]);
      assert EncodeOctets(bs)[3 * i..3 * i + 3] == EncodeOctets(bs[1..])[3 * (i - 1)..3 * (i - 1) + 3];
    }
  }

  /** An escape spelled by the encoder reads back as its octet. */
  lemma OctetAtEncodeOctet(s: string, k: nat, b: byte)
    requires k + 3 <= |s| && s[k..k + 3] == EncodeOctet(b)
    ensures OctetAt(s, k) == Some(b)
  {
    var e := EncodeOctet(b);
    assert e[0] == '%' && e[1] == UpperHex[b / 16] && e[2] == UpperHex[b % 16];
    assert s[k] == e[0] && s[k + 1] == e[1] && s[k + 2] == e[2] by {
      assert s[k..k + 3][0] == s[k];
      assert s[k..k + 3][1] == s[k + 1];
      assert s[k..k + 3][2] == s[k + 2];
    }
    HexDigitValue(b / 16);
    HexDigitValue(b % 16);
  }

  /** The i-th escape of an encoded octet string decodes to the i-th octet. */
  lemma OctetAtEncoded(bs: seq<byte>, rest: string, i: nat)
    requires i < |bs|
    ensures OctetAt(EncodeOctets(bs) + rest, 3 * i) == Some(bs[i])
  {
    var s := EncodeOctets(bs) + rest;
    var k := 3 * i;
    EncodeOctetsSlice(bs, i);
    assert s[k..k + 3] == EncodeOctets(bs)[k..k + 3];
    OctetAtEncodeOctet(s, k, bs[i]);
  }

  lemma {:induction false} OctetsEncoded(bs: seq<byte>, rest: string, k: nat, m: nat)
    requires k + m <= |bs|
    ensures Octets(EncodeOctets(bs) + rest, 3 * k, m) == Some(bs[k..k + m])
    decreases m
  {
    if m > 0 {
      OctetAtEncoded(bs, rest, k);
      var s := EncodeOctets(bs) + rest;
      OctetsEncoded(bs, rest, k + 1, m - 1);
      assert 3 * k + 3 == 3 * (k + 1);
      assert Octets(s, 3 * k + 3, m - 1) == Some(bs[k + 1..k + m]);
      assert Octets(s, 3 * k, m) == Some([bs[k]] + bs[k + 1..k + m]);
      assert bs[k..k + m] == [bs[k]] + bs[k + 1..k + m];
    } else {
      assert bs[k..k] == [];
    }
  }

  /** The escapes the encoder writes for a reserved character decode to that character. */
  lemma DecodeEscapeEncoded(c: char, rest: string)
    requires !IsUnreserved(c)
    ensures var s := EncodeChar(c) + rest;
      s[0] == '%' && DecodeEscape(s) == Some((c, |EncodeChar(c)|))
  {
    var bs := Utf8Encode(c);
    var s := EncodeOctets(bs) + rest;
    var n := |bs|;
    Utf8RoundTrip(c);
    OctetAtEncoded(bs, rest, 0);
    assert s[0..3] == EncodeOctet(bs[0]) by {
      EncodeOctetsSlice(bs, 0);
    }
    if n > 1 {
      OctetsEncoded(bs, rest, 0, n);
      assert bs[0..n] == bs;
      assert Octets(s, 0, n) == Some(bs);
    }
  }

  /** Decoding an encoded character followed by anything decodes that character first. */
  lemma DecodeEncodeChar(c: char, rest: string)
    ensures Decode(EncodeChar(c) + rest)
         == if Decode(rest).Some? then Some([c] + Decode(rest).value) else None
  {
    var s := EncodeChar(c) + rest;
    if IsUnreserved(c) {
      assert s[0] == c && s[1..] == rest;
    } else {
      DecodeEscapeEncoded(c, rest);
      assert s[|EncodeChar(c)|..] == rest;
    }
  }

  /** Decoding undoes encoding, for every string. */
  lemma {:induction false} DecodeEncodeRoundTrip(s: string)
    ensures Decode(Encode(s)) == Some(s)
  {
    if |s| > 0 {
      DecodeEncodeRoundTrip(s[1..]);
      DecodeEncodeChar(s[0], Encode(s[1..]));
      assert [s[0]] + s[1..] == s;
    }
  }

  /** One step of decoding over a character that is not `%`. */
  lemma DecodePlainHead(s: string)
    requires |s| > 0 && s[0] != '%'
    ensures Decode(s)
         == if Decode(s[1..]).Some? then Some([s[0]] + Decode(s[1..]).value) else None
  {
  }

  /** Text without escapes passes through decoding untouched, whatever follows it. */
  lemma {:induction false} DecodePlainPrefix(p: string, rest: string)
    requires '%' !in p
    ensures Decode(p + rest)
         == if Decode(rest).Some? then Some(p + Decode(rest).value) else None
  {
    if |p| == 0 {
      assert p + rest == rest;
      if Decode(rest).Some? {
        assert p + Decode(rest).value == Decode(rest).value;
      }
    } else {
      var s := p + rest;
      var tail := p[1..];
      assert '%' !in tail by {
        assert forall i | 0 <= i < |tail| :: tail[i] == p[i + 1];
      }
      assert s[1..] == tail + rest;
      assert s[0] != '%';
      DecodePlainHead(s);
      DecodePlainPrefix(tail, rest);
      var r := Decode(rest);
      if r.Some? {
        var v := r.value;
        assert Decode(s[1..]) == Some(tail + v);
        assert Decode(s) == Some([p[0]] + (tail + v));
        assert p == [p[0]] + tail;
        assert [p[0]] + (tail + v) == p + v;
      } else {
        assert Decode(s[1..]) == None;
      }
    }
  }

  /** A string without `%` decodes to itself; so decoding can only fail at a `%`. */
  lemma DecodeWithoutEscapes(s: string)
    requires '%' !in s
    ensures Decode(s) == Some(s)
  {
    DecodePlainPrefix(s, []);
    assert s + [] == s;
  }

  // ---------------------------------------------------------------------------
  // Examples

  /** An escaped space decodes to a space. */
  lemma DecodeSpaceExample()
    ensures Decode("hello%20world") == Some("hello world")
  {
    EscapedSpaceThenWord();
    assert "hello" + "%20world" == "hello%20world";
    DecodePlainPrefix("hello", "%20world");
    assert "hello" + " world" == "hello world";
  }

  lemma EscapedSpaceThenWord()
    ensures Decode("%20world") == Some(" world")
  {
    var escaped := "%20world";
    assert OctetAt(escaped, 0) == Some(0x20);
    assert DecodeEscape(escaped) == Some((' ', 3));
    assert escaped[3..] == "world";
    DecodeWithoutEscapes("world");
    assert [' '] + "world" == " world";
  }

  /** A two-octet UTF-8 sequence decodes to one character. */
  lemma DecodeUtf8Example()
    ensures Decode("%C3%A9") == Some("\U{e9}")
  {
    var s := "%C3%A9";
    var tail: seq<byte> := [0xA9];
    var octets: seq<byte> := [0xC3, 0xA9];
    assert OctetAt(s, 0) == Some(0xC3);
    assert OctetAt(s, 3) == Some(0xA9);
    var none: seq<byte> := [];
    assert Octets(s, 6, 0) == Some(none);
    assert [0xA9] + none == tail;
    assert Octets(s, 3, 1) == Some(tail);
    assert [0xC3] + tail == octets;
    assert Octets(s, 0, 2) == Some(octets);
    assert Utf8Decode(octets) == Some('\U{e9}');
    assert DecodeEscape(s) == Some(('\U{e9}', 6));
    assert s[6..] == [];
    var empty: string := [];
    assert Decode(s[6..]) == Some(empty);
    assert ['\U{e9}'] + empty == "\U{e9}";
  }

  /** An escape that does not decode makes the whole decoding fail, whatever plain
      text precedes it: decodeURIComponent throws at the first bad escape. */
  lemma DecodeFailsAtBadEscape(p: string, rest: string)
    requires '%' !in p
    requires |rest| > 0 && rest[0] == '%' && DecodeEscape(rest).None?
    ensures Decode(p + rest) == None
  {
    assert Decode(rest) == None;
    DecodePlainPrefix(p, rest);
  }

  /** In particular a `%` not followed by two hex digits makes decoding fail. */
  lemma DecodeFailsWithoutHexDigits(p: string, rest: string)
    requires '%' !in p
    requires |rest| > 0 && rest[0] == '%' && OctetAt(rest, 0).None?
    ensures Decode(p + rest) == None
  {
    assert DecodeEscape(rest).None?;
    DecodeFailsAtBadEscape(p, rest);
  }

  /** A bare `%`, a `%` without two hex digits, and a UTF-8 lead octet without its
      continuation octet are URIErrors. */
  lemma DecodeErrorExamples()
    ensures Decode("%") == None
    ensures Decode("%zz") == None
    ensures Decode("%E9") == None
  {
    assert DecodeEscape("%") == None;
    assert DecodeEscape("%zz") == None;
    assert OctetAt("%E9", 0) == Some(0xE9);
    assert Octets("%E9", 0, 3) == None;
    assert DecodeEscape("%E9") == None;
  }
}

=== FILE: server.dfy ===
/** One request through the whole service (index.js:11-41, 66-73): the middleware,
    the body parser's outcome, the error middleware, and the catch-all route that
    either resolves a favicon or echoes the request back. */
module Server {
  import opened Wrappers
  import Percent
  import Middleware
  import Favicon

  /** The Accept value that asks for a favicon URL instead of an echo. */
  const FaviconAccept := "application/vnd.favicon.url"
  const TextPlain := "text/plain"
  /** The content type Express's final handler gives its error page. */
  const TextHtml := "text/html; charset=utf-8"

  /** What the raw body parser left on the request: nothing (it keeps its `{}`
      placeholder when the request carries no body) or the bytes it read, which may
      be an empty buffer when the request declares a body of length 0. */
  datatype Body = Empty | Raw(bytes: seq<byte>)

  /** The body parser either hands on a body or fails (size limit exceeded, a
      malformed compressed body), passing the error down the middleware chain. */
  datatype Ingest = Parsed(body: Body) | ParseFailed

  datatype Request = Request(path: string, headers: Middleware.Headers, ingest: Ingest)

  /** What a response carries: the echoed octets, a text, or the HTML page Express's
      final handler writes for an error handed to it (its text depends on the
      environment and is not modelled). */
  datatype Payload = Bytes(bytes: seq<byte>) | Text(text: string) | ErrorPage

  /** A response; `headers` are the ones the service's own middleware sets (not those
      Express or cors add), and `contentType` is the type the handler set itself, None
      where the framework picks one for the payload. */
  datatype Response = Response(
    status: int,
    headers: Middleware.Headers,
    contentType: Option<string>,
    body: Payload)

  /** The reason phrase `res.sendStatus` sends for the two codes this service uses. */
  function StatusMessage(code: int): string
    requires code == 400 || code == 404
  {
    if code == 400 then "Bad Request" else "Not Found"
  }

  /** `res.sendStatus(code)`. */
  function SendStatus(resHeaders: Middleware.Headers, code: int): (r: Response)
    requires code == 400 || code == 404
  {
    Response(code, resHeaders, None, Text(StatusMessage(code)))
  }

  /** `errorHandler`: whatever went wrong, and whether or not it is an Error
      instance (which only changes what is logged), the answer is 400. */
  function ErrorHandler(resHeaders: Middleware.Headers): (r: Response)
    ensures r.status == 400 && r.headers == resHeaders && r.contentType.None?
  {
    SendStatus(resHeaders, 400)
  }

  /** `s.substring(1)`: everything after the first character; empty for an empty string. */
  function Substring1(s: string): (r: string)
    ensures |s| > 0 ==> [s[0]] + r == s
    ensures |s| == 0 ==> r == []
  {
    if |s| == 0 then [] else s[1..]
  }

  /** The echo branch of the route handler, given the request headers as noParsing
      left them. A body is sent back as it came, under the side-channel type; with no
      body the percent-decoded path is sent as plain text, and a path that does not
      decode is a URIError, caught and handed to the error handler. */
  function Echo(path: string, headers: Middleware.Headers, body: Body, resHeaders: Middleware.Headers)
    : (r: Response)
    ensures r.headers == resHeaders
    ensures r.status == 200 || r.status == 400
    ensures body.Raw? ==>
      r == Response(200, resHeaders, Middleware.Get(headers, Middleware.SideChannel), Bytes(body.bytes))
    ensures body.Empty? ==>
      (r.status == 400 <==> Percent.Decode(Substring1(path)).None?)
    ensures body.Empty? && r.status == 200 ==>
      r.contentType == Some(TextPlain) && r.body == Text(Percent.Decode(Substring1(path)).value)
  {
    match body
    case Raw(bytes) =>
      Response(200, resHeaders, Middleware.Get(headers, Middleware.SideChannel), Bytes(bytes))
    case Empty =>
      match Percent.Decode(Substring1(path))
      case None => ErrorHandler(resHeaders)
      case Some(text) => Response(200, resHeaders, Some(TextPlain), Text(text))
  }

  /** Express's final handler, for the error its router raises when the request path
      does not percent-decode: status 400 and its HTML page, on the headers already set. */
  function RouterError(resHeaders: Middleware.Headers): (r: Response)
    ensures r.status == 400 && r.headers == resHeaders && r.body.ErrorPage?
  {
    Response(400, resHeaders, Some(TextHtml), ErrorPage)
  }

  /** The favicon branch: the resolver's reply as a response. */
  function FaviconResponse(reply: Favicon.Reply, resHeaders: Middleware.Headers): (r: Response)
    ensures r.headers == resHeaders
    ensures r.status == 404 <==> reply.NotFound?
    ensures reply.IconUrl? ==> r.status == 200 && r.body == Text(reply.url)
  {
    match reply
    case NotFound => SendStatus(resHeaders, 404)
    case IconUrl(url) => Response(200, resHeaders, None, Text(url))
  }

  /** Where a request ends up. */
  datatype Route = ToErrorHandler | ToRouterError | ToFavicon | ToEcho

  /** The error middleware takes a failed parse. Otherwise Express's router matches the
      catch-all route `*` by percent-decoding the whole path; when that throws, the
      route is skipped and the error goes to the final handler (the error middleware
      sits earlier in the chain and is not consulted again). Otherwise the route
      handler picks the favicon flow only when the Accept header is exactly the
      sentinel. */
  function RouteOf(req: Request): (r: Route)
    ensures r == ToErrorHandler <==> req.ingest.ParseFailed?
    ensures r == ToRouterError <==> req.ingest.Parsed? && Percent.Decode(req.path).None?
  {
    if req.ingest.ParseFailed? then ToErrorHandler
    else if Percent.Decode(req.path).None? then ToRouterError
    else if Middleware.Get(Middleware.NoParsing(req.headers), "accept") == Some(FaviconAccept) then ToFavicon
    else ToEcho
  }

  /** The response to one request, given what the favicon flow's requests would produce.
      OPTIONS requests never get here: `cors()` answers them first. For HEAD, Express
      sends the same status and headers without the body. */
  function Serve(req: Request, ico: Favicon.IcoFetch, page: Favicon.PageFetch): (r: Response)
    ensures r.status in {200, 400, 404}
    ensures r.headers == Middleware.NoCache(map[])
    ensures r.body.ErrorPage? <==> RouteOf(req) == ToRouterError
  {
    var headers := Middleware.NoParsing(req.headers);
    var resHeaders := Middleware.NoCache(map[]);
    match RouteOf(req)
    case ToErrorHandler => ErrorHandler(resHeaders)
    case ToRouterError => RouterError(resHeaders)
    case ToFavicon => FaviconResponse(Favicon.Resolve(req.path, ico, page).reply, resHeaders)
    case ToEcho => Echo(req.path, headers, req.ingest.body, resHeaders)
  }

  // ---------------------------------------------------------------------------
  // Properties of the whole pipeline, in terms of the request as the caller sent it

  /** The favicon flow runs exactly when the body parsed, the path decodes and the
      caller's Accept header is the sentinel, character for character. */
  lemma RouteToFaviconIff(req: Request)
    ensures RouteOf(req) == ToFavicon
        <==> && req.ingest.Parsed? && Percent.Decode(req.path).Some?
             && Middleware.Get(req.headers, "accept") == Some(FaviconAccept)
    ensures RouteOf(req) == ToEcho
        <==> && req.ingest.Parsed? && Percent.Decode(req.path).Some?
             && Middleware.Get(req.headers, "accept") != Some(FaviconAccept)
  {
    var h := Middleware.NoParsing(req.headers);
    assert "accept" in h <==> "accept" in req.headers;
    if "accept" in req.headers {
      assert h["accept"] == req.headers["accept"];
    }
  }

  /** Every response carries exactly the three no-cache headers, whatever the outcome. */
  lemma CacheHeadersOnEveryResponse(req: Request, ico: Favicon.IcoFetch, page: Favicon.PageFetch)
    ensures var h := Serve(req, ico, page).headers;
      && h.Keys == {Middleware.CacheControl, Middleware.Expires, Middleware.Pragma}
      && h[Middleware.CacheControl] == Middleware.NoStore
      && h[Middleware.Expires] == "-1"
      && h[Middleware.Pragma] == "no-cache"
  {
  }

  /** A body is echoed byte for byte with status 200, under the content type the
      caller declared in `content-type` (the binary default when it declared none). */
  lemma EchoBody(req: Request, bytes: seq<byte>, ico: Favicon.IcoFetch, page: Favicon.PageFetch)
    requires req.ingest == Parsed(Raw(bytes)) && Percent.Decode(req.path).Some?
    requires Middleware.Get(req.headers, "accept") != Some(FaviconAccept)
    ensures var r := Serve(req, ico, page);
      && r.status == 200
      && r.body == Bytes(bytes)
      && r.contentType == Some(Middleware.Declared(req.headers))
  {
    RouteToFaviconIff(req);
  }

  /** With no body the percent-decoded path after its first character is sent as
      plain text with status 200, whatever type was declared; a path that does not
      decode, whole or after its first character, gives 400. */
  lemma EchoPath(req: Request, ico: Favicon.IcoFetch, page: Favicon.PageFetch)
    requires req.ingest == Parsed(Empty)
    requires Middleware.Get(req.headers, "accept") != Some(FaviconAccept)
    ensures var r := Serve(req, ico, page);
      && (r.status == 200 <==>
            Percent.Decode(req.path).Some? && Percent.Decode(Substring1(req.path)).Some?)
      && (r.status != 200 ==> r.status == 400)
      && (r.status == 200 ==>
            r.contentType == Some(TextPlain)
            && r.body == Text(Percent.Decode(Substring1(req.path)).value))
  {
    RouteToFaviconIff(req);
  }

  /** For a path that starts with `/`, as every path the router sees does, the whole
      path decodes exactly when the part after the `/` does, so the router's check
      and the handler's agree. */
  lemma PathDecodesIffTailDecodes(path: string)
    requires |path| > 0 && path[0] != '%'
    ensures Percent.Decode(path).Some? <==> Percent.Decode(Substring1(path)).Some?
  {
    assert path == [path[0]] + Substring1(path);
    Percent.DecodePlainPrefix([path[0]], Substring1(path));
  }

  /** A path that does not percent-decode gets 400, whatever the body and the Accept
      header say and whatever the network would answer. */
  lemma UndecodablePathIsBadRequest(req: Request, ico: Favicon.IcoFetch, page: Favicon.PageFetch)
    requires Percent.Decode(req.path).None?
    ensures Serve(req, ico, page).status == 400
    ensures req.ingest.Parsed? ==> Serve(req, ico, page).body == ErrorPage
  {
  }

  /** A body the parser rejects gives 400, whatever else the request says. */
  lemma ParseFailureIsBadRequest(req: Request, ico: Favicon.IcoFetch, page: Favicon.PageFetch)
    requires req.ingest == ParseFailed
    ensures Serve(req, ico, page).status == 400
  {
  }

  /** The echo flow never looks at the favicon flow's network outcomes. */
  lemma EchoIgnoresNetwork(req: Request, ico: Favicon.IcoFetch, page: Favicon.PageFetch,
                           ico': Favicon.IcoFetch, page': Favicon.PageFetch)
    requires RouteOf(req) != ToFavicon
    ensures Serve(req, ico, page) == Serve(req, ico', page')
  {
  }

  /** The favicon flow answers 404 exactly when a request failed because the host does
      not resolve, and otherwise 200 with a URL that starts with the base URL. */
  lemma FaviconStatus(req: Request, ico: Favicon.IcoFetch, page: Favicon.PageFetch)
    requires req.ingest.Parsed? && Percent.Decode(req.path).Some?
    requires Middleware.Get(req.headers, "accept") == Some(FaviconAccept)
    ensures var r := Serve(req, ico, page);
      && (r.status == 404 <==>
            || ico == Favicon.IcoFailed(Some(Favicon.HostNotFound))
            || (ico.IcoStatus? && ico.status >= 400 && page == Favicon.PageFailed(Some(Favicon.HostNotFound))))
      && (r.status != 404 ==>
            r.status == 200 && r.body.Text? && Favicon.BaseUrl(req.path) <= r.body.text)
  {
    RouteToFaviconIff(req);
  }

  // ---------------------------------------------------------------------------
  // Examples

  /** `GET /hello%20world` with no body answers 200 with `hello world` as plain text. */
  lemma HelloWorldExample(ico: Favicon.IcoFetch, page: Favicon.PageFetch)
    ensures Serve(Request("/hello%20world", map[], Parsed(Empty)), ico, page)
         == Response(200, Middleware.NoCache(map[]), Some(TextPlain), Text("hello world"))
  {
    var req := Request("/hello%20world", map[], Parsed(Empty));
    assert Substring1(req.path) == "hello%20world";
    Percent.DecodeSpaceExample();
    PathDecodesIffTailDecodes(req.path);
    RouteToFaviconIff(req);
    assert RouteOf(req) == ToEcho;
    assert Serve(req, ico, page) == Echo(req.path, Middleware.NoParsing(map[]), Empty, Middleware.NoCache(map[]));
  }

  /** A JSON body declared as such in `content-type` comes back under that type. */
  lemma JsonEchoExample(bytes: seq<byte>, ico: Favicon.IcoFetch, page: Favicon.PageFetch)
    ensures var r := Serve(Request("/anything", map["content-type" := "application/json"],
                                   Parsed(Raw(bytes))), ico, page);
      r.status == 200 && r.contentType == Some("application/json") && r.body == Bytes(bytes)
  {
    var req := Request("/anything", map["content-type" := "application/json"], Parsed(Raw(bytes)));
    Percent.DecodeWithoutEscapes(req.path);
    RouteToFaviconIff(req);
  }

  /** A type the caller puts straight into `x-content-type` is overwritten: without a
      `content-type` the echo goes out as opaque binary. */
  lemma CallerSideChannelExample(bytes: seq<byte>, ico: Favicon.IcoFetch, page: Favicon.PageFetch)
    ensures var r := Serve(Request("/anything", map["x-content-type" := "application/json"],
                                   Parsed(Raw(bytes))), ico, page);
      r.status == 200 && r.contentType == Some(Middleware.OctetStream)
  {
    var req := Request("/anything", map["x-content-type" := "application/json"], Parsed(Raw(bytes)));
    Percent.DecodeWithoutEscapes(req.path);
    RouteToFaviconIff(req);
  }

  /** A favicon request for `/<host>` (say `/example.com`) whose `.ico` answers 200 is
      told `<host>/favicon.ico`. */
  lemma FaviconFoundExample(host: string, page: Favicon.PageFetch)
    requires !Favicon.EndsWithSlash(host) && Percent.Decode(host).Some?
    ensures var r := Serve(Request("/" + host, map["accept" := FaviconAccept], Parsed(Empty)),
                           Favicon.IcoStatus(200), page);
      r.status == 200 && r.body == Text(host + "/favicon.ico")
  {
    Percent.DecodePlainPrefix("/", host);
    RouteToFaviconIff(Request("/" + host, map["accept" := FaviconAccept], Parsed(Empty)));
    Favicon.BaseUrlOfPath(host);
  }

  /** A favicon request for a host that does not resolve gets 404. */
  lemma FaviconUnresolvableExample(path: string, page: Favicon.PageFetch)
    requires Percent.Decode(path).Some?
    ensures Serve(Request(path, map["accept" := FaviconAccept], Parsed(Empty)),
                  Favicon.IcoFailed(Some(Favicon.HostNotFound)), page).status == 404
  {
    RouteToFaviconIff(Request(path, map["accept" := FaviconAccept], Parsed(Empty)));
  }
}

=== FILE: wrappers.dfy ===
/** Failure-compatible Option type used for the partial operations of the model
    (a percent-decoding that can throw, a pattern search that can miss). */
module Wrappers {

  /** An octet: what a request body and a UTF-8 sequence are made of. */
  type byte = x: int | 0 <= x < 256

  datatype Option<+T> = None | Some(value: T) {

    /** A missing value is what `:-` propagates. */
    predicate IsFailure() {
      None?
    }

    /** The missing value, retyped for the caller. */
    function PropagateFailure<U>(): Option<U>
      requires None?
    {
      None
    }

    /** The present value, which `:-` binds. */
    function Extract(): T
      requires Some?
    {
      value
    }
  }
}
